=== FILE: README.md ===
# METAPROC pipeline model

A Dafny model of `METAPROC`, the pipeline builder in `index.js` of metaproc-js.
The builder collects an ordered list of deferred state-transforming steps
(`_fns`) and later runs them over an initial state.

- Each operation method installed by `METAPROC.op(id, fn)` pushes one step when
  it is called and returns the instance. The source mutates the instance; the
  model returns the extended instance as a new value.
- `chain(fns)` appends another step list.
- `run(STATE)` folds the steps over the state with `promise.then`, unless a
  custom `run` was given to the constructor.
- A step yields the state it was given, with the body's writes and without the
  body's return value. When the body throws, the step rejects with the envelope
  `{msg: err, STATE}`.
- The five standard operations `ap`, `apto`, `apif`, `aptoif` and `aptoifnot`
  are modelled with their exact guards.

The model works on values throughout:

- A state is a `map<string, Value>`. An absent key reads as `undefined`.
- A caller's function is a total Dafny function. It returns the state object as
  it left it, together with its return value or what it threw.
- A settled promise is an `Outcome`: `Resolved(state)` or `Rejected(reason)`.
- Operation arguments are positional. A missing argument reads as `undefined`.
  Calling an argument that is not a function throws a TypeError (`NotCallable`).
  Because `fn.apply(null, args)(STATE)` runs inside the step's `try`, such an
  error surfaces when the pipeline runs, wrapped in an envelope.

Modules:

- `Values` (values.dfy): values, states, thrown values, callbacks, argument lists.
- `Steps` (steps.dfy): the step wrapper of `METAPROC.op`.
- `Engine` (engine.dfy): the default `run`. It is written literally as the left
  fold `Reduce` and proved equal to the reference `Sequence`, which runs the
  first step and then the rest, stopping at the first rejection.
- `Standard` (standard.dfy): the standard operations.
- `Pipeline` (pipeline.dfy): the instance, constructor, `init`, `op`, method
  calls, `chain` and `run`.
- `Scenarios` (scenarios.dfy): concrete pipelines and what running them yields.

Behaviour of `index.js` worth noting:

- `aptoif` takes `(pred, id, fn)` in that order.
- A step wraps every thrown value in a new envelope, even one that is already
  an envelope from a nested pipeline's `run`.
- `chain` takes a list of steps (another instance's `_fns`), not an instance.
- Whatever an operation body returns is discarded; only what it writes to the
  state survives.
- `init()` without operations ignores its `run` argument.
- The comments above `apto` and `apif` (index.js:70-71 and 76-78) describe each
  other's operation. The model follows the code beneath them.

## Model

| member | source | states |
|---|---|---|
| Values.KeyOf | index.js:73 | The key `STATE[id]` uses: a string argument is its own key; a non-negative number becomes a non-empty digit string, a negative one starts with `-` |
| Values.DecimalRoundTrip | index.js:73 | The decimal digits written for a non-negative integer read back as that integer |
| Values.NumberKeyReadsBack | index.js:73 | A numeric `id` names the property spelled by its canonical numeral: digits that read back as the number, no leading zero, and `-` before the magnitude's numeral when negative, so `STATE[1]` is `STATE["1"]` |
| Values.NumberKeysDistinct | index.js:73 | Two different numbers used as `id` name two different properties |
| Steps.Exec | index.js:36-43 | A step resolves exactly when its body completes, to the state the body left; otherwise it rejects with an envelope holding the thrown value and the step's input state |
| Steps.ReturnValueIgnored | index.js:36-43 | A step that completes yields the state its body left behind; two bodies that leave the same state give the same outcome, whatever each returned |
| Steps.ThrowIsWrapped | index.js:37-42 | A throwing body makes the step reject with `{msg: thrown, STATE: input state}`; a thrown envelope gains one more level of wrapping and is never passed through |
| Engine.Then | index.js:21 | `p.then(step)` passes a rejection on unchanged; on a resolved `p` it resolves to the state the step's body left, or rejects with `{msg: thrown, STATE}` for the state `p` resolved to when the body throws |
| Engine.Reduce | index.js:21 | The fold of `then` over the steps ends in the initial outcome, a resolution, or a rejection whose reason is an envelope; which envelope, and the fold's value, are stated by `Engine.ReduceIsSequence` and `Engine.RejectionShape` |
| Engine.RejectionPassesThrough | index.js:21 | Once the `then` chain is rejected, no later step runs and the reason reaches the end unchanged |
| Engine.ReduceAppend | index.js:21 | Folding over a concatenated step list folds the second part over the first part's outcome |
| Engine.ReduceIsSequence | index.js:21 | The left fold of `then` over the steps equals running the first step and then the rest on its resulting state, stopping at the first rejection |
| Engine.SequenceAppend | index.js:21 | Running `a + b` runs `b` on the state `a` resolved to, or yields `a`'s rejection without running `b` |
| Engine.FailsAt | index.js:36-43 | If the steps before `k` resolve to `t` and step `k` throws `x` on `t`, the run rejects with `{msg: x, STATE: t}`, whatever the later steps are |
| Engine.RejectionShape | index.js:36-43 | Every rejection of the default run is an envelope whose `STATE` is the state the earlier steps resolved to, and whose `msg` is what some step `k` threw on that state |
| Pipeline.Op | index.js:34-47 | Installing method `id` binds it to the new factory and keeps every other method, the step list and the `run` override |
| Pipeline.New | index.js:3-24 | A new instance has an empty step list, keeps the `run` override, and has exactly the declared names as methods |
| Pipeline.NewKeepsLastDeclaration | index.js:3 | Of several declarations of one name, applied in order, the last one is the method the instance keeps |
| Pipeline.Init | index.js:52-54 | Without operations the instance gets exactly the five standard methods bound to their bodies and no `run` override, even when one was passed; with operations the `run` argument is kept |
| Pipeline.Declare | index.js:35-45 | Calling an installed method appends exactly one step, with that method's factory and the call's arguments, after the unchanged earlier steps, and changes nothing else; calling an uninstalled name fails |
| Pipeline.Chain | index.js:10-13 | `chain(fns)` gives the instance's steps followed by `fns`, both in their original order, and changes nothing else |
| Pipeline.Run | index.js:18-22 | `run` delegates to the override when there is one; otherwise it runs the steps in order with first-failure short-circuit, and an empty step list resolves to the initial state |
| Pipeline.RunAfterDeclare | index.js:35-45 | Running after a method call runs the earlier steps and then, only if they resolved, the new step on their final state |
| Pipeline.RunAfterChain | index.js:10-13 | Running a chained instance runs the chained steps on the state the instance's own steps resolved to; a rejection of the own steps is the final outcome |
| Pipeline.ChainLaws | index.js:10-13 | Chaining an empty list is the identity; chaining `a` then `b` equals chaining `a + b` |
| Pipeline.RebindKeepsQueuedSteps | index.js:34-47 | Re-installing a name after a call leaves the enqueued step holding the old factory, and running gives the same outcome as before |
| Standard.Ap | index.js:66-68 | `ap` succeeds only when given a function; without one (a missing or non-function argument) it throws a TypeError |
| Standard.ApDiscardsReturnValue | index.js:66-68 | Two functions that leave the same state behind make `ap` give the same result: what `fn` returns is ignored, only its writes survive |
| Standard.ApPassesThrowOn | index.js:66-68 | When `fn` throws, `ap(fn)` throws the same value, which the step then wraps in its envelope |
| Standard.ApIsApifAlwaysTrue | index.js:66-83 | `ap(fn)` behaves exactly as `apif(() => true, fn)` |
| Standard.Apto | index.js:72-74 | When `apto(id, fn)` succeeds, `fn` was a function and key `id` is present in the resulting state (possibly bound to `undefined`) |
| Standard.AptoChangesOnlyKey | index.js:72-74 | `apto(id, fn)` binds `id` to `fn(STATE[id], STATE)` and adds no key but `id`; every other key is as `fn` left it, so with a `fn` that writes nothing only `id` changes; a throw is passed on |
| Standard.Apif | index.js:79-83 | When `pred` returns anything other than exactly `true`, `apif` cannot fail, whatever its second argument is |
| Standard.ApifIsGuardedAp | index.js:79-83 | `apif(pred, fn)` acts as `ap(fn)` when `pred(STATE)` is exactly `true`, and otherwise leaves the state as `pred` left it, including for truthy results other than `true` |
| Standard.Aptoif | index.js:88-92 | When `pred(STATE[id], STATE)` returns anything other than exactly `true`, `aptoif` cannot fail, whatever its third argument is |
| Standard.AptoifIsGuardedApto | index.js:88-92 | `aptoif(pred, id, fn)` acts as `apto(id, fn)` when `pred(STATE[id], STATE)` is exactly `true`, and otherwise leaves the state as `pred` left it |
| Standard.Aptoifnot | index.js:96-100 | With `STATE[id]` defined, `aptoifnot` succeeds and leaves the state as it was whatever `fn` is; with `STATE[id]` undefined and no function given, it throws a TypeError |
| Standard.AptoifnotIdempotent | index.js:96-100 | Once `aptoifnot(id, fn)` has left `STATE[id]` defined, running it again changes nothing |
| Standard.Declarations | index.js:62-102 | `METAPROC.standard` declares five operations, named `ap`, `apto`, `apif`, `aptoif` and `aptoifnot` in that order |
| Standard.StandardIdsAreUnique | index.js:62-102 | The five standard declarations have pairwise distinct names among `ap`, `apto`, `apif`, `aptoif`, `aptoifnot`, so none shadows another |
| Standard.AptoifnotFillsOnlyUndefined | index.js:96-100 | `aptoifnot(id, fn)` leaves the state untouched without calling `fn` when `STATE[id]` is defined; otherwise it binds `id` to `fn(STATE)` and keeps every other key as `fn` left it |
| Scenarios.AptoifKeepsThree | index.js:88-92 | `init().aptoif(x => x > 5, "x", x => x * 2)` run on `{x: 3}` resolves to `{x: 3}` |
| Scenarios.AptoifDoublesTen | index.js:88-92 | The same pipeline run on `{x: 10}` resolves to `{x: 20}` |
| Scenarios.ApifNeedsExactlyTrue | index.js:80 | `apif` with a predicate returning `1` leaves any state unchanged |
| Scenarios.FailureStopsTheRun | index.js:21 | Steps `[set x, throw, set y]` reject with an envelope whose state holds `x` and not `y` |
| Scenarios.MissingArgumentFailsAtRun | index.js:36-43 | `ap()` without its function is accepted when called and rejects when run, with the TypeError in an envelope |
| Scenarios.EnvelopeIsWrappedAgain | index.js:41 | A body that throws an envelope makes the run reject with that envelope wrapped once more |
| Scenarios.UnknownNameFailsAtDeclaration | index.js:35 | A name that no operation installed, such as `as`, cannot be called on a standard instance |

## Left out

- Promises and `async`/`await`: a promise is represented by its settled outcome. The `.then` chain only sequences the steps, and the fold captures that order.
- Pipeline.Declare, Pipeline.Chain: the instance is a value. In the source a method call or `chain` mutates the instance and returns that same object, so a reference taken before the call also sees the new steps; such aliasing is not represented.
- In-place mutation by reference: the state is threaded as a value. When a body writes to the state and then throws, the envelope here carries the step's input state; in the source it carries the same object, writes included. The model also does not show that `run` mutates the caller's initial object.
- Pipeline.Run: the custom `run` override is an opaque function supplied by the caller. The model only states that `run` delegates to it.
- `Array.prototype.flat` in `METAPROC.init`: the declaration list is taken as already flat.
- JavaScript object semantics are not modelled:
  - an operation named `_fns`, `chain` or `run` overwrites that member of the instance;
  - keys inherited from `Object.prototype` (for example `toString`) read as defined;
  - symbol keys are not represented.
- Values: numbers are unbounded integers. There are no floating-point numbers, `NaN`, objects, arrays or functions among state values.
- A non-string key is converted only for the primitive values the model has. A function used as a key becomes the source text it carries.
- Predicates are not awaited in the source. An `async` predicate returns a promise, which is never exactly `true`. In the model, such a predicate is a callback that returns a value other than `Bool(true)`.
- Callbacks are typed: a caller's function is a total function of the arguments it is given. A value that is not a function throws `NotCallable` when it is called.
- Pipeline.Chain: `fns` is taken to hold steps made by operation methods. In the source `_fns` may hold any function, and `chain` accepts any array (a non-array is appended as a single element by `concat`). For a plain function in the `then` fold, its return value would become the next `STATE`, and what it throws would reach `run`'s caller without an envelope. `Steps.Exec`, `Engine.RejectionShape` and the rest of the engine's contracts hold for step lists of operation-made steps only.
- Values.KeyOf: a number becomes its plain decimal digits. `String(n)` agrees with this only below 10^21, above which it writes exponent notation such as `1e+21`. Integers beyond 2^53 are not exact in JavaScript at all. The model's integers are unbounded and exact.
- `test/index.js` and `test/proof.js`: they call APIs that `index.js` does not define (`Standard`, `of`, `fmap`, `as`, `asifnot`, `method`, `log`, `lift`, and `op` called on an instance). `console.log` output is not modelled either.

=== FILE: engine.dfy ===
/** The default `run`: `_fns.reduce((p, fn) => p.then(fn), Promise.resolve(STATE))`.
    Promises are read as sequencing: a settled promise is an `Outcome`. */
module Engine {
  import opened Values
  import opened Steps

  /** `p.then(fn)`: a resolved promise feeds its state to the step; a rejected
      one passes its reason on without running the step. */
  function Then(o: Outcome, st: Step): (r: Outcome)
    ensures o.Rejected? ==> r == o
    ensures r.Rejected? && r != o ==> o.Resolved? && r.reason.Envelope? && r.reason.state == o.state
    ensures o.Resolved? && Body(st, o.state).Returned? ==> r == Resolved(Body(st, o.state).state)
    ensures o.Resolved? && Body(st, o.state).Threw? ==> r == Rejected(Envelope(Body(st, o.state).err, o.state))
  {
    match o
    case Resolved(s) => Exec(st, s)
    case Rejected(e) => Rejected(e)
  }

  /** The left fold of `then` over the step list, exactly as written in the source.
      A rejection at the end is the initial one or an envelope made by a step. */
  function Reduce(fns: seq<Step>, init: Outcome): (r: Outcome)
    ensures r.Rejected? && r != init ==> r.reason.Envelope?
    decreases |fns|
  {
    if |fns| == 0 then init
    else Then(Reduce(fns[..|fns| - 1], init), fns[|fns| - 1])
  }

  /** Reference semantics: run the first step, stop at its failure, otherwise
      run the rest on the state it left. */
  function Sequence(fns: seq<Step>, s: State): Outcome
    decreases |fns|
  {
    if |fns| == 0 then Resolved(s)
    else match Exec(fns[0], s)
      case Resolved(t) => Sequence(fns[1..], t)
      case Rejected(e) => Rejected(e)
  }

  /** Once the chain is rejected no later step runs and the reason is kept. */
  lemma {:induction false} RejectionPassesThrough(fns: seq<Step>, e: Thrown)
    ensures Reduce(fns, Rejected(e)) == Rejected(e)
    decreases |fns|
  {
    if |fns| > 0 {
      RejectionPassesThrough(fns[..|fns| - 1], e);
    }
  }

  /** Folding over a concatenation folds the second list over the first's result. */
  lemma {:induction false} ReduceAppend(a: seq<Step>, b: seq<Step>, init: Outcome)
    ensures Reduce(a + b, init) == Reduce(b, Reduce(a, init))
    decreases |b|
  {
    if |b| == 0 {
      assert a + b == a;
    } else {
      var n := |b| - 1;
      assert (a + b)[..|a + b| - 1] == a + b[..n];
      assert (a + b)[|a + b| - 1] == b[n];
      ReduceAppend(a, b[..n], init);
    }
  }

  /** The source's left fold agrees with the first-step-then-rest reading. */
  lemma {:induction false} ReduceIsSequence(fns: seq<Step>, s: State)
    ensures Reduce(fns, Resolved(s)) == Sequence(fns, s)
    decreases |fns|
  {
    if |fns| > 0 {
      ReduceAppend([fns[0]], fns[1..], Resolved(s));
      assert [fns[0]] + fns[1..] == fns;
      assert [fns[0]][..0] == [];
      assert Reduce([fns[0]], Resolved(s)) == Exec(fns[0], s);
      match Exec(fns[0], s)
      case Resolved(t) =>
        ReduceIsSequence(fns[1..], t);
      case Rejected(e) =>
        RejectionPassesThrough(fns[1..], e);
    }
  }

  /** Running `a + b` runs `a`, and runs `b` on its final state only if `a` resolved. */
  lemma {:induction false} SequenceAppend(a: seq<Step>, b: seq<Step>, s: State)
    ensures Sequence(a, s).Resolved? ==> Sequence(a + b, s) == Sequence(b, Sequence(a, s).state)
    ensures Sequence(a, s).Rejected? ==> Sequence(a + b, s) == Sequence(a, s)
    decreases |a|
  {
    if |a| == 0 {
      assert a + b == b;
    } else {
      assert (a + b)[0] == a[0];
      assert (a + b)[1..] == a[1..] + b;
      match Exec(a[0], s)
      case Resolved(t) =>
        SequenceAppend(a[1..], b, t);
      case Rejected(_) =>
    }
  }

  /** If the steps before `k` resolve to `t` and step `k` throws `x` on `t`,
      the run rejects with `{msg: x, STATE: t}` whatever follows step `k`. */
  lemma {:induction false} FailsAt(fns: seq<Step>, s: State, k: nat, t: State)
    requires k < |fns|
    requires Sequence(fns[..k], s) == Resolved(t)
    requires Body(fns[k], t).Threw?
    ensures Sequence(fns, s) == Rejected(Envelope(Body(fns[k], t).err, t))
  {
    SequenceAppend(fns[..k], fns[k..], s);
    assert fns[..k] + fns[k..] == fns;
    assert fns[k..][0] == fns[k];
  }

  /** Every rejection of the default run is an envelope around what step `k`
      threw, carrying the state step `k` was given, for some step `k` that
      all earlier steps reached. */
  lemma {:induction false} RejectionShape(fns: seq<Step>, s: State)
    requires Sequence(fns, s).Rejected?
    ensures Sequence(fns, s).reason.Envelope?
    ensures exists k :: (0 <= k < |fns| &&
                         Sequence(fns[..k], s) == Resolved(Sequence(fns, s).reason.state) &&
                         Body(fns[k], Sequence(fns, s).reason.state) == Threw(Sequence(fns, s).reason.msg))
    decreases |fns|
  {
    var e := Sequence(fns, s).reason;
    assert |fns| > 0;
    match Exec(fns[0], s)
    case Rejected(_) =>
      assert fns[..0] == [];
      assert Sequence(fns[..0], s) == Resolved(e.state);
    case Resolved(t) =>
      var rest := fns[1..];
      RejectionShape(rest, t);
      var k' :| 0 <= k' < |rest| &&
        Sequence(rest[..k'], t) == Resolved(e.state) &&
        Body(rest[k'], e.state) == Threw(e.msg);
      assert fns[..k' + 1][0] == fns[0];
      assert fns[..k' + 1][1..] == rest[..k'];
      assert fns[k' + 1] == rest[k'];
  }
}

=== FILE: pipeline.dfy ===
/** A METAPROC instance: the operation methods installed on it, the step list
    `_fns` those methods fill, and the optional `run` override given to the
    constructor. Every builder call returns the updated instance as a value. */
module Pipeline {
  import opened Values
  import opened Steps
  import opened Engine
  import Standard

  /** A caller-supplied replacement for the default `run`. */
  type Runner = (State, seq<Step>) -> Outcome

  datatype Metaproc = Metaproc(ops: map<string, Factory>, fns: seq<Step>, runner: Option<Runner>)

  /** Declaration `i` is the last one in `decls` with its name. */
  ghost predicate LastWithId(decls: seq<OpDecl>, i: nat)
    requires i < |decls|
  {
    forall j :: i < j < |decls| ==> decls[j].id != decls[i].id
  }

  /** `METAPROC.op(id, fn)(metaproc)`: installs method `id`, replacing any method
      of that name; the step list and every other method stay as they were. */
  function Op(m: Metaproc, d: OpDecl): (r: Metaproc)
    ensures r.fns == m.fns && r.runner == m.runner
    ensures r.ops.Keys == m.ops.Keys + {d.id}
    ensures r.ops[d.id] == d.factory
    ensures forall id :: id in m.ops && id != d.id ==> r.ops[id] == m.ops[id]
  {
    m.(ops := m.ops[d.id := d.factory])
  }

  /** `METAPROC(ops, run)`: a fresh instance with an empty step list, with the
      declarations applied left to right, so a later declaration of a name wins. */
  function New(decls: seq<OpDecl>, runner: Option<Runner>): (r: Metaproc)
    ensures r.fns == [] && r.runner == runner
    ensures r.ops.Keys == set i | 0 <= i < |decls| :: decls[i].id
    decreases |decls|
  {
    if |decls| == 0 then Metaproc(map[], [], runner)
    else
      var n := |decls| - 1;
      var init := decls[..n];
      var prev := New(init, runner);
      assert (set i | 0 <= i < |decls| :: decls[i].id) == prev.ops.Keys + {decls[n].id} by {
        assert forall i :: 0 <= i < n ==> init[i] == decls[i];
      }
      Op(prev, decls[n])
  }

  /** Of several declarations of one name, the instance keeps the last one. */
  lemma {:induction false} NewKeepsLastDeclaration(decls: seq<OpDecl>, runner: Option<Runner>, i: nat)
    requires i < |decls| && LastWithId(decls, i)
    ensures decls[i].id in New(decls, runner).ops
    ensures New(decls, runner).ops[decls[i].id] == decls[i].factory
    decreases |decls|
  {
    var n := |decls| - 1;
    if i < n {
      var init := decls[..n];
      assert init[i] == decls[i];
      assert LastWithId(init, i) by {
        forall j | i < j < |init|
          ensures init[j].id != init[i].id
        {
          assert init[j] == decls[j];
        }
      }
      NewKeepsLastDeclaration(init, runner, i);
      assert decls[n].id != decls[i].id;
    }
  }

  /** `METAPROC.init(ops, run)`: without a declaration list the instance gets the
      standard operations and the `run` argument is dropped. */
  function Init(decls: Option<seq<OpDecl>>, runner: Option<Runner>): (r: Metaproc)
    ensures r.fns == []
    ensures decls.None? ==> r.runner == None
    ensures decls.None? ==> r.ops.Keys == {"ap", "apto", "apif", "aptoif", "aptoifnot"}
    ensures decls.None? ==> r.ops["ap"] == Standard.Ap && r.ops["apto"] == Standard.Apto
    ensures decls.None? ==> r.ops["apif"] == Standard.Apif && r.ops["aptoif"] == Standard.Aptoif
    ensures decls.None? ==> r.ops["aptoifnot"] == Standard.Aptoifnot
    ensures decls.Some? ==> r.runner == runner
    ensures decls.Some? ==> r.ops.Keys == set i | 0 <= i < |decls.value| :: decls.value[i].id
  {
    if decls.None? then
      var std := Standard.Declarations();
      assert (set i | 0 <= i < |std| :: std[i].id) == {"ap", "apto", "apif", "aptoif", "aptoifnot"} by {
        assert std[0].id == "ap" && std[1].id == "apto" && std[2].id == "apif";
        assert std[3].id == "aptoif" && std[4].id == "aptoifnot";
      }
      assert forall i :: 0 <= i < |std| ==> LastWithId(std, i);
      NewKeepsLastDeclaration(std, None, 0);
      NewKeepsLastDeclaration(std, None, 1);
      NewKeepsLastDeclaration(std, None, 2);
      NewKeepsLastDeclaration(std, None, 3);
      NewKeepsLastDeclaration(std, None, 4);
      New(std, None)
    else New(decls.value, runner)
  }

  /** `metaproc[id](...args)`: pushes one step that closes over the method's
      current factory and these arguments. The source returns the same,
      now longer, instance; here the longer instance is the result.
      Calling a name that is not installed throws a TypeError (`None`). */
  function Declare(m: Metaproc, id: string, args: seq<Arg>): (r: Option<Metaproc>)
    ensures r.Some? <==> id in m.ops
    ensures r.Some? ==> |r.value.fns| == |m.fns| + 1 && r.value.fns[..|m.fns|] == m.fns
    ensures r.Some? ==> r.value.fns[|m.fns|].factory == m.ops[id] && r.value.fns[|m.fns|].args == args
    ensures r.Some? ==> r.value.ops == m.ops && r.value.runner == m.runner
  {
    if id in m.ops then Some(m.(fns := m.fns + [Step(m.ops[id], args)])) else None
  }

  /** `chain(fns)`: the instance's own steps followed by `fns`, both in order. */
  function Chain(m: Metaproc, fns: seq<Step>): (r: Metaproc)
    ensures |r.fns| == |m.fns| + |fns|
    ensures r.fns[..|m.fns|] == m.fns && r.fns[|m.fns|..] == fns
    ensures r.ops == m.ops && r.runner == m.runner
  {
    m.(fns := m.fns + fns)
  }

  /** `run(STATE)`: delegates to the override when there is one; otherwise runs
      the steps in order, stopping at the first rejection. */
  function Run(m: Metaproc, s: State): (o: Outcome)
    ensures m.runner.Some? ==> o == m.runner.value(s, m.fns)
    ensures m.runner.None? ==> o == Sequence(m.fns, s)
    ensures m.runner.None? && m.fns == [] ==> o == Resolved(s)
  {
    match m.runner
    case Some(run) => run(s, m.fns)
    case None =>
      ReduceIsSequence(m.fns, s);
      Reduce(m.fns, Resolved(s))
  }

  /** Running after a declaration runs the earlier steps and then, only if they
      resolved, the new step on their final state. */
  lemma RunAfterDeclare(m: Metaproc, id: string, args: seq<Arg>, s: State)
    requires id in m.ops && m.runner.None?
    ensures Run(Declare(m, id, args).value, s) == Then(Run(m, s), Step(m.ops[id], args))
  {
    var st := Step(m.ops[id], args);
    SequenceAppend(m.fns, [st], s);
    if Run(m, s).Resolved? {
      assert [st][1..] == [];
    }
  }

  /** Running a chained instance runs its own steps first, and the chained ones
      only on the state they resolved to; a rejection of the former is final. */
  lemma RunAfterChain(m: Metaproc, fns: seq<Step>, s: State)
    requires m.runner.None?
    ensures Run(m, s).Resolved? ==> Run(Chain(m, fns), s) == Sequence(fns, Run(m, s).state)
    ensures Run(m, s).Rejected? ==> Run(Chain(m, fns), s) == Run(m, s)
  {
    SequenceAppend(m.fns, fns, s);
  }

  /** Chaining an empty list changes nothing, and chaining twice is chaining
      the concatenation once. */
  lemma ChainLaws(m: Metaproc, a: seq<Step>, b: seq<Step>)
    ensures Chain(m, []) == m
    ensures Chain(Chain(m, a), b) == Chain(m, a + b)
  {
    assert m.fns + [] == m.fns;
    assert m.fns + a + b == m.fns + (a + b);
  }

  /** Installing a new method under a name already used leaves the steps
      enqueued through the old one as they were: they keep the old factory. */
  lemma RebindKeepsQueuedSteps(m: Metaproc, id: string, args: seq<Arg>, g: Factory, s: State)
    requires id in m.ops
    ensures var m1 := Declare(m, id, args).value;
            var m2 := Op(m1, OpDecl(id, g));
            && m2.fns == m1.fns
            && m2.fns[|m.fns|].factory == m.ops[id]
            && m2.ops[id] == g
            && Run(m2, s) == Run(m1, s)
  {
  }
}

=== FILE: scenarios.dfy ===
/** Concrete pipelines built with the standard operations, and what running
    them yields. */
module Scenarios {
  import opened Values
  import opened Steps
  import opened Engine
  import opened Pipeline

  /** `x => x > 5`, for integer `x`; any other value compares as `false` here. */
  function AboveFive(): Arg {
    Fn((c: Call) => match c
                    case OnKey(Num(n), st) => Returned(st, Bool(n > 5))
                    case _ => Returned(c.state, Bool(false)),
       "x => x > 5")
  }

  /** `x => x * 2`, for integer `x`. */
  function Double(): Arg {
    Fn((c: Call) => match c
                    case OnKey(Num(n), st) => Returned(st, Num(2 * n))
                    case _ => Returned(c.state, Undefined),
       "x => x * 2")
  }

  /** `STATE => 1`: truthy, but not `true`. */
  function Truthy(): Arg {
    Fn((c: Call) => Returned(c.state, Num(1)), "STATE => 1")
  }

  /** `STATE => { STATE[key] = v }`. */
  function Assign(key: string, v: Value): Arg {
    Fn((c: Call) => Returned(c.state[key := v], Undefined), "STATE => { STATE[key] = v }")
  }

  /** `STATE => { throw e }`. */
  function Throw(e: Thrown): Arg {
    Fn((c: Call) => Threw(e), "STATE => { throw e }")
  }

  /** Running an instance whose only step is `st` runs `st`. */
  lemma RunOneStep(m: Metaproc, st: Step, s: State)
    requires m.runner.None? && m.fns == [st]
    ensures Run(m, s) == Exec(st, s)
  {
    assert Run(m, s) == Sequence([st], s);
    match Exec(st, s)
    case Resolved(t) =>
      assert [st][1..] == [];
      assert Sequence([st][1..], t) == Resolved(t);
    case Rejected(_) =>
  }

  /** The arguments of `aptoif(x => x > 5, "x", x => x * 2)`. */
  function DoubleAboveFiveArgs(): seq<Arg> {
    [AboveFive(), Val(Str("x")), Double()]
  }

  /** `METAPROC.init().aptoif(x => x > 5, "x", x => x * 2)`. */
  function DoubleAboveFive(): Metaproc {
    Declare(Init(None, None), "aptoif", DoubleAboveFiveArgs()).value
  }

  /** The pipeline holds the one `aptoif` step and no `run` override. */
  lemma DoubleAboveFiveHoldsOneStep()
    ensures DoubleAboveFive().runner.None?
    ensures DoubleAboveFive().fns == [Step(Standard.Aptoif, DoubleAboveFiveArgs())]
  {
  }

  /** The `aptoif` body on `{x: n}`. */
  lemma AptoifOnX(n: int)
    ensures n <= 5 ==> Standard.Aptoif(DoubleAboveFiveArgs(), map["x" := Num(n)]) == Returned(map["x" := Num(n)], Undefined)
    ensures n > 5 ==> Standard.Aptoif(DoubleAboveFiveArgs(), map["x" := Num(n)]) == Returned(map["x" := Num(2 * n)], Undefined)
  {
    var args := DoubleAboveFiveArgs();
    var s := map["x" := Num(n)];
    assert KeyOf(Nth(args, 1)) == "x";
    assert Get(s, "x") == Num(n);
    assert Invoke(Nth(args, 0), OnKey(Num(n), s)) == Returned(s, Bool(n > 5));
    assert Invoke(Nth(args, 2), OnKey(Num(n), s)) == Returned(s, Num(2 * n));
    assert s["x" := Num(2 * n)] == map["x" := Num(2 * n)];
  }

  /** With `{x: 3}` the predicate is false and the state stays `{x: 3}`. */
  lemma AptoifKeepsThree()
    ensures Run(DoubleAboveFive(), map["x" := Num(3)]) == Resolved(map["x" := Num(3)])
  {
    DoubleAboveFiveHoldsOneStep();
    AptoifOnX(3);
    RunOneStep(DoubleAboveFive(), Step(Standard.Aptoif, DoubleAboveFiveArgs()), map["x" := Num(3)]);
  }

  /** With `{x: 10}` the predicate is true and the state becomes `{x: 20}`. */
  lemma AptoifDoublesTen()
    ensures Run(DoubleAboveFive(), map["x" := Num(10)]) == Resolved(map["x" := Num(20)])
  {
    DoubleAboveFiveHoldsOneStep();
    AptoifOnX(10);
    RunOneStep(DoubleAboveFive(), Step(Standard.Aptoif, DoubleAboveFiveArgs()), map["x" := Num(10)]);
  }

  /** `METAPROC.init().apif(a...)` holds the one `apif` step and no `run` override. */
  lemma OneApifStep(args: seq<Arg>)
    ensures Declare(Init(None, None), "apif", args).Some?
    ensures Declare(Init(None, None), "apif", args).value.runner.None?
    ensures Declare(Init(None, None), "apif", args).value.fns == [Step(Standard.Apif, args)]
  {
  }

  /** A predicate returning `1` does not trigger `apif`. */
  lemma ApifNeedsExactlyTrue(s: State)
    ensures var m := Declare(Init(None, None), "apif", [Truthy(), Assign("y", Num(7))]);
            && m.Some?
            && Run(m.value, s) == Resolved(s)
  {
    var args := [Truthy(), Assign("y", Num(7))];
    OneApifStep(args);
    assert Invoke(Nth(args, 0), OnState(s)) == Returned(s, Num(1));
    assert Standard.Apif(args, s) == Returned(s, Undefined);
    RunOneStep(Declare(Init(None, None), "apif", args).value, Step(Standard.Apif, args), s);
  }

  /** `METAPROC.init().ap(a)` holds the one `ap` step and no `run` override. */
  lemma OneApStep(args: seq<Arg>)
    ensures Declare(Init(None, None), "ap", args).Some?
    ensures Declare(Init(None, None), "ap", args).value.runner.None?
    ensures Declare(Init(None, None), "ap", args).value.fns == [Step(Standard.Ap, args)]
  {
  }

  /** `METAPROC.init().ap(a).ap(b).ap(c)` holds three `ap` steps in call order. */
  lemma ThreeApSteps(a: Arg, b: Arg, c: Arg)
    ensures var m1 := Declare(Init(None, None), "ap", [a]).value;
            var m2 := Declare(m1, "ap", [b]).value;
            var m3 := Declare(m2, "ap", [c]);
            && m3.Some?
            && m3.value.runner.None?
            && m3.value.fns == [Step(Standard.Ap, [a]), Step(Standard.Ap, [b]), Step(Standard.Ap, [c])]
  {
  }

  /** Steps `[set x, throw, set y]`: the run rejects with the state the
      throwing step was given, which holds `x` and not `y`. */
  lemma FailureStopsTheRun()
    ensures var m0 := Init(None, None);
            var m1 := Declare(m0, "ap", [Assign("x", Num(1))]).value;
            var m2 := Declare(m1, "ap", [Throw(Raw(Str("boom")))]).value;
            var m3 := Declare(m2, "ap", [Assign("y", Num(2))]);
            && m3.Some?
            && Run(m3.value, map[]) == Rejected(Envelope(Raw(Str("boom")), map["x" := Num(1)]))
  {
    ThreeApSteps(Assign("x", Num(1)), Throw(Raw(Str("boom"))), Assign("y", Num(2)));
    var m0 := Init(None, None);
    var m1 := Declare(m0, "ap", [Assign("x", Num(1))]).value;
    var m2 := Declare(m1, "ap", [Throw(Raw(Str("boom")))]).value;
    var fns := Declare(m2, "ap", [Assign("y", Num(2))]).value.fns;
    var setX := Step(Standard.Ap, [Assign("x", Num(1))]);
    var afterX: State := map["x" := Num(1)];
    assert map[]["x" := Num(1)] == afterX;
    assert Exec(setX, map[]) == Resolved(afterX);
    assert fns[..1] == [setX] && [setX][1..] == [];
    assert Sequence(fns[..1], map[]) == Resolved(afterX);
    assert Body(fns[1], afterX) == Threw(Raw(Str("boom")));
    FailsAt(fns, map[], 1, afterX);
  }

  /** `ap()` without its function is accepted when declared and fails when run,
      with the TypeError wrapped like any other throw. */
  lemma MissingArgumentFailsAtRun(s: State)
    ensures var m := Declare(Init(None, None), "ap", []);
            && m.Some?
            && Run(m.value, s) == Rejected(Envelope(NotCallable, s))
  {
    OneApStep([]);
    assert Standard.Ap([], s) == Threw(NotCallable);
    RunOneStep(Declare(Init(None, None), "ap", []).value, Step(Standard.Ap, []), s);
  }

  /** An envelope thrown by a body, as a nested pipeline's `run` would produce,
      is wrapped a second time. */
  lemma EnvelopeIsWrappedAgain(s: State, t: State)
    ensures var inner := Envelope(Raw(Str("inner")), t);
            var m := Declare(Init(None, None), "ap", [Throw(inner)]);
            && m.Some?
            && Run(m.value, s) == Rejected(Envelope(inner, s))
  {
    var inner := Envelope(Raw(Str("inner")), t);
    OneApStep([Throw(inner)]);
    assert Standard.Ap([Throw(inner)], s) == Threw(inner);
    RunOneStep(Declare(Init(None, None), "ap", [Throw(inner)]).value, Step(Standard.Ap, [Throw(inner)]), s);
  }

  /** Calling a name that was never installed fails at declaration time. */
  lemma UnknownNameFailsAtDeclaration(args: seq<Arg>)
    ensures Declare(Init(None, None), "as", args).None?
  {
  }
}

=== FILE: standard.dfy ===
/** The five standard operations `METAPROC.standard` declares. Each is a
    factory: given the call-time arguments (positionally; a missing one is
    `undefined`) and the state, it calls the caller's functions and writes the
    state. None of the bodies returns a value, which the step wrapper would
    discard in any case. */
module Standard {
  import opened Values
  import opened Steps

  /** `ap(fn)`: awaits `fn(STATE)`; only what `fn` writes to the state survives. */
  function Ap(args: seq<Arg>, s: State): (r: Completion)
    ensures r.Returned? ==> Nth(args, 0).Fn?
    ensures Nth(args, 0).Val? ==> r == Threw(NotCallable)
  {
    match Invoke(Nth(args, 0), OnState(s))
    case Returned(after, _) => Returned(after, Undefined)
    case Threw(e) => Threw(e)
  }

  /** `apto(id, fn)`: `STATE[id] = await fn(STATE[id], STATE)`. */
  function Apto(args: seq<Arg>, s: State): (r: Completion)
    ensures r.Returned? ==> Nth(args, 1).Fn? && KeyOf(Nth(args, 0)) in r.state
  {
    var key := KeyOf(Nth(args, 0));
    match Invoke(Nth(args, 1), OnKey(Get(s, key), s))
    case Returned(after, v) => Returned(after[key := v], Undefined)
    case Threw(e) => Threw(e)
  }

  /** `apif(pred, fn)`: awaits `fn(STATE)` only when `pred(STATE) === true`. */
  function Apif(args: seq<Arg>, s: State): (r: Completion)
    ensures var p := Invoke(Nth(args, 0), OnState(s));
            p.Returned? && p.value != Bool(true) ==> r.Returned?
  {
    match Invoke(Nth(args, 0), OnState(s))
    case Threw(e) => Threw(e)
    case Returned(t, p) =>
      if p == Bool(true) then
        match Invoke(Nth(args, 1), OnState(t))
        case Returned(after, _) => Returned(after, Undefined)
        case Threw(e) => Threw(e)
      else Returned(t, Undefined)
  }

  /** `aptoif(pred, id, fn)`: `STATE[id] = await fn(STATE[id], STATE)` only when
      `pred(STATE[id], STATE) === true`. */
  function Aptoif(args: seq<Arg>, s: State): (r: Completion)
    ensures var key := KeyOf(Nth(args, 1));
            var p := Invoke(Nth(args, 0), OnKey(Get(s, key), s));
            p.Returned? && p.value != Bool(true) ==> r.Returned?
  {
    var key := KeyOf(Nth(args, 1));
    match Invoke(Nth(args, 0), OnKey(Get(s, key), s))
    case Threw(e) => Threw(e)
    case Returned(t, p) =>
      if p == Bool(true) then
        match Invoke(Nth(args, 2), OnKey(Get(t, key), t))
        case Returned(after, v) => Returned(after[key := v], Undefined)
        case Threw(e) => Threw(e)
      else Returned(t, Undefined)
  }

  /** `aptoifnot(id, fn)`: `STATE[id] = await fn(STATE)` only when `STATE[id] === undefined`. */
  function Aptoifnot(args: seq<Arg>, s: State): (r: Completion)
    ensures Get(s, KeyOf(Nth(args, 0))) != Undefined ==> r.Returned? && r.state == s
    ensures Get(s, KeyOf(Nth(args, 0))) == Undefined && Nth(args, 1).Val? ==> r == Threw(NotCallable)
  {
    var key := KeyOf(Nth(args, 0));
    if Get(s, key) == Undefined then
      match Invoke(Nth(args, 1), OnState(s))
      case Returned(after, v) => Returned(after[key := v], Undefined)
      case Threw(e) => Threw(e)
    else Returned(s, Undefined)
  }

  /** No two declarations in `decls` share a name. */
  ghost predicate UniqueIds(decls: seq<OpDecl>) {
    forall i, j :: 0 <= i < j < |decls| ==> decls[i].id != decls[j].id
  }

  /** The five operations `METAPROC.standard` declares, in order. */
  function Declarations(): (d: seq<OpDecl>)
    ensures |d| == 5
    ensures d[0].id == "ap" && d[1].id == "apto" && d[2].id == "apif"
    ensures d[3].id == "aptoif" && d[4].id == "aptoifnot"
  {
    [ OpDecl("ap", Ap),
      OpDecl("apto", Apto),
      OpDecl("apif", Apif),
      OpDecl("aptoif", Aptoif),
      OpDecl("aptoifnot", Aptoifnot) ]
  }

  /** `ap(fn)` ignores what `fn` returns: two functions that leave the same
      state behind give the same result. */
  lemma ApDiscardsReturnValue(f: Callback, g: Callback, src: string, args: seq<Arg>, s: State)
    requires f(OnState(s)).Returned? && g(OnState(s)).Returned?
    requires f(OnState(s)).state == g(OnState(s)).state
    ensures Ap([Fn(f, src)] + args, s) == Ap([Fn(g, src)] + args, s)
    ensures Ap([Fn(f, src)] + args, s) == Returned(f(OnState(s)).state, Undefined)
  {
  }

  /** What `fn` throws, `ap(fn)` throws in turn, unchanged. */
  lemma ApPassesThrowOn(f: Callback, src: string, args: seq<Arg>, s: State)
    requires f(OnState(s)).Threw?
    ensures Ap([Fn(f, src)] + args, s) == Threw(f(OnState(s)).err)
  {
  }

  /** `ap(fn)` is `apif` with a predicate that always returns `true` and writes nothing. */
  lemma ApIsApifAlwaysTrue(fn: Arg, s: State)
    ensures Ap([fn], s) == Apif([Fn((c: Call) => Returned(c.state, Bool(true)), "() => true"), fn], s)
  {
  }

  /** `apto(id, fn)` binds key `id` to what `fn` returned; every other key is as
      `fn` left it, so with a `fn` that writes nothing only key `id` changes. */
  lemma AptoChangesOnlyKey(args: seq<Arg>, s: State)
    ensures var key := KeyOf(Nth(args, 0));
            var c := Invoke(Nth(args, 1), OnKey(Get(s, key), s));
            && (c.Threw? ==> Apto(args, s) == Threw(c.err))
            && (c.Returned? ==>
                  && Apto(args, s).Returned?
                  && Get(Apto(args, s).state, key) == c.value
                  && Apto(args, s).state.Keys == c.state.Keys + {key}
                  && (forall k :: k != key ==> Get(Apto(args, s).state, k) == Get(c.state, k)))
            && (c.Returned? && c.state == s ==>
                  forall k :: k != key ==> Get(Apto(args, s).state, k) == Get(s, k))
  {
  }

  /** `apif(pred, fn)` is `ap(fn)` on the state `pred` left when `pred` returned
      exactly `true`, and leaves that state as it is for any other result,
      truthy ones included. */
  lemma ApifIsGuardedAp(args: seq<Arg>, s: State)
    ensures var p := Invoke(Nth(args, 0), OnState(s));
            && (p.Threw? ==> Apif(args, s) == Threw(p.err))
            && (p.Returned? && p.value == Bool(true) ==>
                  Apif(args, s) == Ap([Nth(args, 1)], p.state))
            && (p.Returned? && p.value != Bool(true) ==>
                  Apif(args, s) == Returned(p.state, Undefined))
  {
  }

  /** `aptoif(pred, id, fn)` is `apto(id, fn)` on the state `pred` left when
      `pred` returned exactly `true`, and leaves that state as it is otherwise. */
  lemma AptoifIsGuardedApto(args: seq<Arg>, s: State)
    ensures var key := KeyOf(Nth(args, 1));
            var p := Invoke(Nth(args, 0), OnKey(Get(s, key), s));
            && (p.Threw? ==> Aptoif(args, s) == Threw(p.err))
            && (p.Returned? && p.value == Bool(true) ==>
                  Aptoif(args, s) == Apto([Nth(args, 1), Nth(args, 2)], p.state))
            && (p.Returned? && p.value != Bool(true) ==>
                  Aptoif(args, s) == Returned(p.state, Undefined))
  {
  }

  /** `aptoifnot(id, fn)` leaves the state untouched, without calling `fn`,
      when `STATE[id]` is defined; otherwise it binds `id` to `fn(STATE)` and
      keeps every other key as `fn` left it. */
  lemma AptoifnotFillsOnlyUndefined(args: seq<Arg>, s: State)
    ensures var key := KeyOf(Nth(args, 0));
            var c := Invoke(Nth(args, 1), OnState(s));
            && (Get(s, key) != Undefined ==> Aptoifnot(args, s) == Returned(s, Undefined))
            && (Get(s, key) == Undefined && c.Threw? ==> Aptoifnot(args, s) == Threw(c.err))
            && (Get(s, key) == Undefined && c.Returned? ==>
                  && Aptoifnot(args, s).Returned?
                  && Get(Aptoifnot(args, s).state, key) == c.value
                  && (forall k :: k != key ==> Get(Aptoifnot(args, s).state, k) == Get(c.state, k)))
  {
  }

  /** Once `aptoifnot(id, fn)` has left `STATE[id]` defined, running it again
      changes nothing. */
  lemma AptoifnotIdempotent(args: seq<Arg>, s: State)
    requires Aptoifnot(args, s).Returned?
    requires Get(Aptoifnot(args, s).state, KeyOf(Nth(args, 0))) != Undefined
    ensures Aptoifnot(args, Aptoifnot(args, s).state) == Returned(Aptoifnot(args, s).state, Undefined)
  {
  }

  /** No name is declared twice in `METAPROC.standard`, so no standard
      operation shadows another and each is installed under its own name. */
  lemma StandardIdsAreUnique()
    ensures UniqueIds(Declarations())
    ensures forall i :: 0 <= i < |Declarations()| ==> Declarations()[i].id in {"ap", "apto", "apif", "aptoif", "aptoifnot"}
  {
  }
}

=== FILE: steps.dfy ===
/** The deferred step that `METAPROC.op` pushes for every call of an
    operation method, and what running one step does. */
module Steps {
  import opened Values

  /** The function given to `METAPROC.op(id, fn)`: applied to the call-time
      arguments and then to the state. Both applications happen when the step
      runs, inside the step's `try`. */
  type Factory = (seq<Arg>, State) -> Completion

  /** One enqueued unit of work: the factory the operation name was bound to
      when the call was made, closed over that call's arguments. */
  datatype Step = Step(factory: Factory, args: seq<Arg>)

  /** `METAPROC.op(id, fn)` before it is applied to an instance. */
  datatype OpDecl = OpDecl(id: string, factory: Factory)

  /** What the operation body does to the state it is given. */
  function Body(st: Step, s: State): Completion {
    st.factory(st.args, s)
  }

  /** Running a step: on success it yields the state object it was given
      (with whatever the body wrote to it) and drops the body's return value;
      on any throw it rejects with a fresh envelope around the thrown value. */
  function Exec(st: Step, s: State): (o: Outcome)
    ensures o.Resolved? <==> Body(st, s).Returned?
    ensures o.Resolved? ==> o.state == Body(st, s).state
    ensures o.Rejected? ==> o.reason.Envelope? && o.reason.msg == Body(st, s).err && o.reason.state == s
  {
    match Body(st, s)
    case Returned(after, _) => Resolved(after)
    case Threw(e) => Rejected(Envelope(e, s))
  }

  /** Whatever the body returns, the step's outcome is the same: only the
      state the body leaves behind matters. */
  lemma ReturnValueIgnored(f: Factory, g: Factory, args: seq<Arg>, s: State)
    requires f(args, s).Returned? && g(args, s).Returned?
    requires f(args, s).state == g(args, s).state
    ensures Exec(Step(f, args), s) == Exec(Step(g, args), s)
    ensures Exec(Step(f, args), s) == Resolved(f(args, s).state)
  {
  }

  /** A throwing body always yields an envelope that carries the thrown value
      and the state given to the step. A thrown value that already is an
      envelope is wrapped once more rather than passed through. */
  lemma ThrowIsWrapped(st: Step, s: State)
    requires Body(st, s).Threw?
    ensures Exec(st, s).Rejected?
    ensures Exec(st, s).reason.Envelope?
    ensures Exec(st, s).reason.msg == Body(st, s).err
    ensures Exec(st, s).reason.state == s
    ensures Depth(Exec(st, s).reason) == Depth(Body(st, s).err) + 1
    ensures Exec(st, s).reason != Body(st, s).err
  {
  }
}

=== FILE: values.dfy ===
/** The JavaScript values a pipeline state holds, the values a step can throw,
    and the shape of a call to a caller-supplied function.

    A state is a plain object used as a string-keyed map. A key that is absent
    reads as `undefined`, exactly like a key that is present and bound to
    `undefined`; `Get` is the one place that encodes this. */
module Values {

  datatype Option<+T> = None | Some(value: T)

  /** The primitive JavaScript values the model distinguishes. Numbers are
      integers here (see README, "Left out"). */
  datatype Value =
    | Undefined
    | Null
    | Bool(b: bool)
    | Num(n: int)
    | Str(s: string)

  /** The object threaded through a pipeline, as a map from property key to value. */
  type State = map<string, Value>

  /** Property read `STATE[key]`: a missing property is `undefined`. */
  function Get(s: State, key: string): Value {
    if key in s then s[key] else Undefined
  }

  /** What a step or a callback can throw. `NotCallable` is the TypeError the
      engine raises when a non-function is called; `Envelope` is the object
      `{msg, STATE}` built by the step wrapper. */
  datatype Thrown =
    | Raw(v: Value)
    | NotCallable
    | Envelope(msg: Thrown, state: State)

  /** How many envelopes are wrapped around the innermost thrown value. */
  function Depth(t: Thrown): nat {
    match t
    case Envelope(m, _) => 1 + Depth(m)
    case _ => 0
  }

  /** The settled result of a promise of a state: `run` and every step produce one. */
  datatype Outcome = Resolved(state: State) | Rejected(reason: Thrown)

  /** The argument list a callback receives: `fn(STATE)` or `fn(STATE[id], STATE)`. */
  datatype Call = OnState(state: State) | OnKey(current: Value, state: State)

  /** The result of calling a caller-supplied function. `state` is the state
      object after the call, so a callback that writes to the object it was
      given is represented by a different `state`; `value` is what it returned
      (after `await`, where the caller awaits it). */
  datatype Completion = Returned(state: State, value: Value) | Threw(err: Thrown)

  type Callback = Call -> Completion

  /** An argument given when an operation is declared: a plain value, or a
      function together with its source text (what `String(fn)` yields). */
  datatype Arg = Val(v: Value) | Fn(f: Callback, source: string)

  /** The argument at `i`, or `undefined` when the caller passed fewer. */
  function Nth(args: seq<Arg>, i: nat): Arg {
    if i < |args| then args[i] else Val(Undefined)
  }

  /** Calling an argument: a non-function throws a TypeError. */
  function Invoke(a: Arg, c: Call): Completion {
    match a
    case Fn(f, _) => f(c)
    case Val(_) => Threw(NotCallable)
  }

  /** The character of decimal digit `d`. */
  function Digit(d: nat): (c: char)
    requires d < 10
    ensures '0' <= c <= '9'
    ensures c as int - '0' as int == d
  {
    "0123456789"[d]
  }

  /** The digit a character denotes, `0` for a character that is not a digit. */
  function DigitValue(c: char): (d: nat)
    ensures d < 10
    ensures '0' <= c <= '9' ==> Digit(d) == c
  {
    if '0' <= c <= '9' then c as int - '0' as int else 0
  }

  /** The decimal digits of `n` with no leading zero, as `String(n)` writes an
      integer below 10^21 (see README, "Left out"). */
  function Decimal(n: nat): (r: string)
    ensures |r| > 0
    ensures forall i :: 0 <= i < |r| ==> '0' <= r[i] <= '9'
    ensures r[0] == '0' ==> r == "0"
    decreases n
  {
    if n < 10 then [Digit(n)] else Decimal(n / 10) + [Digit(n % 10)]
  }

  /** Reads a string of decimal digits back as a number: the partner of `Decimal`. */
  function ReadDecimal(r: string): nat
    decreases |r|
  {
    if |r| == 0 then 0 else 10 * ReadDecimal(r[..|r| - 1]) + DigitValue(r[|r| - 1])
  }

  /** `Decimal` loses nothing: reading its digits back gives `n`. */
  lemma {:induction false} DecimalRoundTrip(n: nat)
    ensures ReadDecimal(Decimal(n)) == n
    decreases n
  {
    var r := Decimal(n);
    if n < 10 {
      assert r[..0] == [];
      assert DigitValue(Digit(n)) == n;
    } else {
      DecimalRoundTrip(n / 10);
      assert r[..|r| - 1] == Decimal(n / 10);
      assert DigitValue(r[|r| - 1]) == n % 10;
    }
  }

  /** The property key an argument denotes when used as `STATE[id]`. */
  function KeyOf(a: Arg): (k: string)
    ensures a.Val? && a.v.Str? ==> k == a.v.s
    ensures a.Val? && a.v.Num? && a.v.n >= 0 ==> |k| > 0 && forall i :: 0 <= i < |k| ==> '0' <= k[i] <= '9'
    ensures a.Val? && a.v.Num? && a.v.n < 0 ==> |k| > 1 && k[0] == '-'
  {
    match a
    case Fn(_, src) => src
    case Val(Str(s)) => s
    case Val(Undefined) => "undefined"
    case Val(Null) => "null"
    case Val(Bool(b)) => if b then "true" else "false"
    case Val(Num(n)) => if n < 0 then "-" + Decimal(-n) else Decimal(n)
  }

  /** A numeric key is the number's canonical numeral: its digits read back as
      the number, with no leading zero, and a negative number is `-` followed by
      the numeral of its magnitude. So `STATE[1]` is the property `"1"` and
      `STATE[-1]` the property `"-1"`. */
  lemma {:induction false} NumberKeyReadsBack(n: int)
    ensures n >= 0 ==> ReadDecimal(KeyOf(Val(Num(n)))) == n
    ensures n < 0 ==> KeyOf(Val(Num(n)))[0] == '-' && ReadDecimal(KeyOf(Val(Num(n)))[1..]) == -n
    ensures n > 0 ==> KeyOf(Val(Num(n)))[0] != '0'
    ensures n < 0 ==> KeyOf(Val(Num(n))) == "-" + KeyOf(Val(Num(-n)))
  {
    if n >= 0 {
      DecimalRoundTrip(n);
    } else {
      var k := KeyOf(Val(Num(n)));
      assert k == "-" + Decimal(-n);
      assert k[1..] == Decimal(-n);
      DecimalRoundTrip(-n);
    }
  }

  /** Different numbers name different properties. */
  lemma NumberKeysDistinct(a: int, b: int)
    requires a != b
    ensures KeyOf(Val(Num(a))) != KeyOf(Val(Num(b)))
  {
    NumberKeyReadsBack(a);
    NumberKeyReadsBack(b);
  }
}
